=== FILE: README.md ===
# create-rn-trpc: a Dafny model of the scaffolder core

create-rn-trpc is a command-line tool. It creates a React Native + tRPC project directory from a bundled template. This project models the core of `src/index.ts` and proves properties of that model:

- **`createProject`**: the orchestration. It gets a name, either the argument or an answer to the interactive prompt. It then validates the name, refuses an existing path, creates the directory, copies the template and rewrites the manifests. Last, it installs dependencies unless `--skip-install` was given, and prints the next steps.
- **The prompt's `validate` callback.** It rejects blank answers and names the package-name rules refuse.
- **`updateProjectFiles`.** It sets `name` in package.json. When app.json has a truthy `expo` member, it also sets `expo.name`, `expo.slug` and `expo.scheme`.
- **The slug derivation.** The name is lower-cased, and every character outside `[a-z0-9-]` becomes `-`.
- **`getInstallCommand` and `getDevCommand`.**

The model has seven modules:

| module | file | models |
|---|---|---|
| `Wrappers` | `wrappers.dfy` | `Option` and `Result` |
| `Json` | `json.dfy` | parsed JSON documents; a property read `o.k` and a property assignment `o.k = v` |
| `Slug` | `slug.dfy` | the slug of a project name |
| `Commands` | `commands.dfy` | the install and dev commands per package manager |
| `Prompt` | `prompt.dfy` | `trim`, the `validate` callback, and the re-asking prompt |
| `Manifest` | `manifest.dfy` | `updateProjectFiles` over the two manifest files |
| `Orchestrator` | `orchestrator.dfy` | `createProject` and the abort policy |

JavaScript semantics that the model states explicitly:

- **Strict mode.** Module code runs in strict mode. So assigning a property on `null` or on a primitive throws a TypeError, and so does reading a property of `null`.
- **Assignment on an array.** A property assigned on an array is dropped by `JSON.stringify`. The file is then written back unchanged.
- **Truthiness.** `if (appJson.expo)` tests JavaScript truthiness.
- **Key order.** An assignment to an existing key keeps its position, and a new key that is not an array index is appended. A parsed object lists each key once.
- **Defaults.** `options.packageManager || "npm"` treats the empty option as unset.
- **Error message.** `validation.errors?.[0] || "Invalid project name"` falls back when the error list is missing or empty, or its first error is the empty string.

`Orchestrator.CreateProject` follows the source's straight-line code. `Orchestrator.Execute` is a separate state machine that runs a list of steps and stops right after the first failing fatal step. Every step except the dependency install is fatal. `Orchestrator.BuildFollowsPolicy` proves the two agree for every input. Its proof splits on where the run ends: `PolicyBeforeCopy` covers a stop before the copy (with `PolicyStopsAtCheck` and `PolicyStopsAtDirectory`), `PolicyCopyFails` a failed copy, and `BuildAfterCopy` (through `PolicyUpToCopy`, `PolicyCopySucceeds` and `PolicyCopied`) a full copy. These are cases of the one equivalence, not separate properties of the source.

Three behaviours of the code that are easy to misread:

- **Blank names.** Only the prompt's callback checks `trim`. A name given as an argument goes to the package-name rules unchanged.
- **Which `expo` values are patched.** `expo` is tested for truthiness only. So a truthy string, number or boolean throws a TypeError, and an array is written back unchanged.
- **Unknown package managers.** Every option string other than "yarn", "pnpm" and "bun" gets npm's commands.

## Model

| member | source | states |
|---|---|---|
| `Json.Set` | src/index.ts:216 | after `o.k = v`, reading `k` yields `v` and every other key reads as before |
| `Json.SetWellFormed` | src/index.ts:225-227 | an assignment keeps an object in the shape `JSON.parse` produces: each key listed once, and exactly the listed keys have values |
| `Json.SetExisting` | src/index.ts:225-227 | assigning the value a key already holds leaves the object unchanged |
| `Json.SetIdempotent` | src/index.ts:225-227 | repeating an assignment changes nothing |
| `Slug.LowerChar` | src/index.ts:224 | lower-casing maps `A`-`Z` to `a`-`z` and the Kelvin sign to `k`, keeps every other character, and never yields an upper-case ASCII letter |
| `Slug.Lower` | src/index.ts:224 | `toLowerCase` keeps the length and lower-cases position by position |
| `Slug.ReplaceDisallowed` | src/index.ts:224 | the global replace keeps the length, keeps allowed characters, and puts `-` in place of every other character |
| `Slug.Slugify` | src/index.ts:224 | the slug has the name's length, holds only `[a-z0-9-]`, and is the lower-cased character or `-` at each position |
| `Slug.SlugKeepsAllowed` | src/index.ts:224 | a position holding an allowed character keeps it in the slug |
| `Slug.SlugFixpoint` | src/index.ts:224 | a name is its own slug if and only if it consists only of allowed characters |
| `Slug.SlugIdempotent` | src/index.ts:224 | the slug of a slug is the slug itself |
| `Slug.SlugIgnoresCase` | src/index.ts:224 | a name and its lower-cased form have the same slug |
| `Slug.SlugOfSpacedName` | src/index.ts:224 | "My App" becomes "my-app" |
| `Slug.SlugOfPunctuatedName` | src/index.ts:224 | "My App!" becomes "my-app-": a trailing disallowed character is replaced, not dropped or collapsed |
| `Slug.SlugOfUnderscoredName` | src/index.ts:224 | "Foo_Bar123" becomes "foo-bar123" |
| `Slug.SlugOfAccentedName` | src/index.ts:224 | "Café" becomes "caf-": `é` lower-cases to a character outside the class |
| `Slug.SlugOfKelvinSign` | src/index.ts:224 | "Kelvin", spelt with the Kelvin sign, becomes "kelvin": the sign lower-cases to `k`, which is kept |
| `Slug.SlugOfSlugName` | src/index.ts:224 | "demo-app" is its own slug |
| `Commands.InstallCommand` | src/index.ts:233-244 | the install command is the selected manager's program followed by " install", and one of four fixed commands; unknown options select npm |
| `Commands.DevCommand` | src/index.ts:246-257 | the dev command is "npm run dev" for npm, and the program followed by " dev" for yarn, pnpm and bun |
| `Commands.CommandsShareProgram` | src/index.ts:233-257 | the install and dev commands for one option run the same program, the one the option selects |
| `Commands.InstallCommandDeterminesManager` | src/index.ts:233-244 | two options give the same install command exactly when they select the same manager |
| `Commands.NpmCommands` | src/index.ts:233-257 | npm's commands are "npm install" and "npm run dev" |
| `Prompt.TrimStart` | src/index.ts:77 | `trim` drops a whitespace-only prefix, and the rest does not start with whitespace |
| `Prompt.TrimEnd` | src/index.ts:77 | `trim` drops a whitespace-only suffix, and the rest does not end with whitespace |
| `Prompt.TrimEmptyIffBlank` | src/index.ts:77-79 | `!input.trim()` holds exactly for the empty and the whitespace-only answers |
| `Prompt.CheckAnswer` | src/index.ts:76-85 | an answer is accepted exactly when it is not blank and the package-name rules allow it; a blank answer gets "Project name is required"; a refused name gets the rules' first error or "Invalid project name" |
| `Prompt.Ask` | src/index.ts:71-88 | the prompt yields the first answer that passes, after rejecting every earlier one; it keeps waiting exactly when no answer passes |
| `Prompt.AskFrom` | src/index.ts:71-88 | the same, for the answers from a given position on |
| `Manifest.SetPackageName` | src/index.ts:214-217 | on an object `name` becomes the project name; an array is written back as it was; any other document throws a TypeError |
| `Manifest.SetPackageNameKeepsOthers` | src/index.ts:216 | setting `name` leaves every other member of package.json as it was |
| `Manifest.SetPackageNameWellFormed` | src/index.ts:214-217 | setting `name` keeps package.json in the shape `JSON.parse` produces |
| `Manifest.PatchExpo` | src/index.ts:224-227 | `expo.name` is the project name, `expo.slug` is its slug, `expo.scheme` equals `expo.slug`, and every other member of `expo` is unchanged |
| `Manifest.PatchApp` | src/index.ts:220-230 | a `null` document throws; a missing, falsy or array `expo` leaves the document as it was; a truthy primitive `expo` throws; an object `expo` is replaced by its patched form |
| `Manifest.PatchAppKeepsOthers` | src/index.ts:222-228 | patching `expo` leaves every other member of app.json as it was |
| `Manifest.PatchAppWellFormed` | src/index.ts:220-230 | patching keeps app.json and its `expo` object in the shape `JSON.parse` produces |
| `Manifest.UpdateProjectFiles` | src/index.ts:212-231 | A missing or unreadable package.json fails with nothing written. A TypeError from package.json becomes the error, with nothing written. Otherwise package.json is written before app.json is touched. Then: a missing app.json stays missing and the rewrite succeeds; an unreadable app.json fails; a TypeError from app.json becomes the error, with app.json as it was; a successful patch is written. app.json changes only in that last case |
| `Manifest.PatchExpoIdempotent` | src/index.ts:224-227 | patching `expo` a second time with the same name changes nothing |
| `Manifest.SetPackageNameIdempotent` | src/index.ts:214-217 | setting `name` twice gives the same package.json as setting it once |
| `Manifest.PatchAppIdempotent` | src/index.ts:220-230 | patching app.json twice gives the same document as patching it once |
| `Manifest.UpdateProjectFilesIdempotent` | src/index.ts:212-231 | a second rewrite with the same name reproduces the first, files and error alike |
| `Manifest.AppManifestIdentity` | src/index.ts:220-230 | after a successful rewrite, app.json's `expo` holds the name, its slug, and a scheme equal to the slug |
| `Manifest.AppManifestKeepsOtherMembers` | src/index.ts:220-230 | a successful rewrite changes no member of `expo` other than name, slug and scheme, and no member of app.json other than `expo` |
| `Manifest.PackageManifestIdentity` | src/index.ts:214-217 | after a successful rewrite, package.json's `name` is the project name and every other member is unchanged |
| `Manifest.TemplateRewrite` | src/index.ts:212-231 | a template with an object package.json and an `expo` object in app.json is rewritten without error, with the name in package.json and in `expo`, and the slug in `expo.slug` and `expo.scheme` |
| `Manifest.DemoAppManifests` | src/index.ts:212-231 | for "demo-app" such a template ends with "demo-app" as the package name and the app's name, slug and scheme |
| `Orchestrator.CreateProject` | src/index.ts:61-210 | The attempted steps are a prefix of the pipeline. An aborted run ends right after the fatal step it aborted at. A completed run went through the whole pipeline. The run waits for a name exactly when no argument was given and no typed answer passes the prompt |
| `Orchestrator.Execute` | src/index.ts:91-176 | the abort policy: the steps run in order; a run that stops has just attempted the fatal step it stopped at; a run that does not stop attempts every step |
| `Orchestrator.ExecuteWarnsAtFailure` | src/index.ts:153-173 | a run warns if and only if one of the steps it attempted is non-fatal and failed in the world the steps before it left |
| `Orchestrator.ExecuteStopsAtFailure` | src/index.ts:91-151 | a run that stops has run the steps before the last one without stopping, and the last step failed in the world they left |
| `Orchestrator.ExecuteRunsPastFatalSteps` | src/index.ts:91-151 | a run that does not stop found every fatal step succeeding in the world the steps before it left; with `ExecuteStopsAtFailure`, a run stops exactly when, and right after, a fatal step fails |
| `Orchestrator.BuildFollowsPolicy` | src/index.ts:91-198 | for every name, the straight-line code of `createProject` and the abort policy over the pipeline give the same trace, outcome and world |
| `Orchestrator.PolicyFromUpdate` | src/index.ts:143-176 | From the manifest rewrite on: a failed rewrite stops the run. A skipped install ends it. Otherwise the install is attempted, and its failure is only a warning |
| `Orchestrator.InvalidNameAborts` | src/index.ts:91-99 | an argument the package-name rules refuse ends the run with exit code 1 right after validation, with the disk untouched |
| `Orchestrator.CollisionAborts` | src/index.ts:101-109 | a valid name whose path exists ends the run with exit code 1 after the path check, with the disk untouched |
| `Orchestrator.AbortedStepFailed` | src/index.ts:91-151 | the step an aborted run names is the step that failed, and every step before it ran without stopping the run |
| `Orchestrator.DirectoryFailureAborts` | src/index.ts:124-130 | a failed directory creation ends the run with exit code 1; no later step is attempted and the disk is untouched |
| `Orchestrator.CopyFailureAborts` | src/index.ts:132-141 | a failed template copy ends the run with exit code 1; no later step is attempted, and the directory keeps what the copy wrote |
| `Orchestrator.RewriteFailureAborts` | src/index.ts:143-151 | a failed manifest rewrite ends the run with exit code 1; the install is not attempted, the template stays, and the manifests are as the rewrite left them |
| `Orchestrator.PromptedNameIsValid` | src/index.ts:64-99 | a name taken from the prompt never fails the validation that follows it |
| `Orchestrator.CompletesIff` | src/index.ts:61-198 | a run completes if and only if a name is known, it is valid, its path is free, the directory is created, the template is copied and the manifest rewrite succeeds |
| `Orchestrator.InstallFailureIsAWarning` | src/index.ts:153-173 | a failed install does not abort: the run completes with exit code 0 and prints `cd <name>` and the install command |
| `Orchestrator.InstallHintIffFailure` | src/index.ts:153-176 | a completed run prints the manual-install hint if and only if the install was attempted and failed; the hint is `cd <name>` and the install command |
| `Orchestrator.NextStepsOrder` | src/index.ts:183-198 | The next steps are `cd <name>`, then the install command only under `--skip-install`, then the dev command. Both commands use the selected manager |
| `Orchestrator.CompletedProject` | src/index.ts:118-151 | a completed run leaves the existing paths, the new directory and the whole template below it, and the rewritten manifests |
| `Orchestrator.SkippedNpmSteps` | src/index.ts:183-198 | with npm and `--skip-install`, the next steps are `cd <name>`, "npm install" and "npm run dev" |
| `Orchestrator.DemoAppScenario` | src/index.ts:61-210 | "demo-app" with `--skip-install` and the default manager exits 0, lists "npm install" and "npm run dev", and leaves the template's manifests rewritten for "demo-app" |

## Left out

- **validate-npm-package-name.** Its rules are not modelled. The validator is a parameter of type `string -> Validation`, and every property holds for any validator.
- **File system.** The disk is a set of path strings, and `path.resolve(process.cwd(), name)` is `cwd + "/" + name`, without normalising `..`, `.` or absolute names. Whether `fs.ensureDirSync` and `fs.copy` succeed is an input. A failed copy leaves the subset of the template it reached.
- **Reading JSON.** `fs.readJson` is modelled only through its result: absent, malformed, or a parsed document. JSON text, parsing, number precision (numbers are integers here) and the two-space indentation of `fs.writeJson` are not modelled. A failing write is not modelled either.
- **`execSync` of the install command.** It is an input: it succeeds or fails. Its output and the child process are not modelled.
- **Command-line plumbing.** Console output, colours, spinners, the banner, and the `commander` argument parsing are left out. So is the help shown when no argument at all is given (lines 259-263). A missing argument and an empty argument are both the empty string.
- **The outer `catch`.** The catch of lines 53-58, which turns a thrown error into exit code 1, is folded into the `Aborted` outcome. The message printed for an invalid name (line 96), which may read `undefined`, is not modelled.
- **The interactive prompt.** Answers are a finite sequence. When none passes, the outcome is `AwaitingName`, standing for a prompt that is still waiting. inquirer hands back the typed answer unchanged, as this code uses no filter.
- Slug.LowerChar: lower-cases ASCII letters and the Kelvin sign only. Any other character is kept. Characters of `[a-z0-9-]` are their own lower-case form. For every other character that `toLowerCase` changes, the one-character lower-case form is also outside `[a-z0-9-]`, so the slug cannot tell the difference. The exception is `İ` (U+0130), whose lower-case form is two characters, `i` plus a combining dot. In the source that gives `i-`; the model gives `-`.
- Slug.Lower: the same restriction as Slug.LowerChar.
- Slug.ReplaceDisallowed: works on Unicode code points. The source's regex has no `u` flag, so it works on UTF-16 code units. A character beyond U+FFFF, such as an emoji, becomes `--` in the source but one `-` here.
- Slug.Slugify: inherits both differences. For names without `İ` and without characters beyond U+FFFF, the slug is the source's.
- Json.Set: appends every new key. JavaScript lists array-index keys ("0", "1", ...) before all other keys, in ascending order. The scaffolder assigns only `name`, `slug`, `scheme` and `expo`, none of which is an array index.
- Orchestrator.CompletedProject: the disk holds only paths the model creates. A successful install also writes `node_modules/` and a lockfile below the project (line 160). `fs.ensureDirSync` also creates missing parent directories (line 125), such as `@scope` for the name `@scope/app`.
- **Partial copies.** After a failed copy, the world's manifests stay absent, even when the partial copy includes package.json. Nothing ties the template's manifests to its path set; whether `package.json` and `app.json` are among the template's paths is not modelled.
- **JSON objects.** Only the top level of package.json and app.json and the `expo` object are modelled as key-value objects. Inherited properties and special keys such as `__proto__` are not modelled.
- **Template contents.** The template directory is a set of relative paths, and its manifests are an input.

=== FILE: commands.dfy ===
/**
 * The shell commands the scaffolder runs or suggests for a package manager
 * (`getInstallCommand`, `getDevCommand`). Both take the raw option string and
 * fall back to npm for anything that is not "yarn", "pnpm" or "bun".
 */
module Commands {

  /** The four package managers the tool knows. */
  datatype PackageManager = Npm | Yarn | Pnpm | Bun

  /** The manager an option string selects. */
  function Select(option: string): PackageManager {
    if option == "yarn" then Yarn
    else if option == "pnpm" then Pnpm
    else if option == "bun" then Bun
    else Npm
  }

  /** The executable of a manager. */
  function Program(m: PackageManager): string {
    match m
    case Npm => "npm"
    case Yarn => "yarn"
    case Pnpm => "pnpm"
    case Bun => "bun"
  }

  /** Naming a manager by its executable selects that manager. */
  lemma SelectProgram(m: PackageManager)
    ensures Select(Program(m)) == m
  {
  }

  /** `getInstallCommand`: the selected manager's `install` subcommand. */
  function InstallCommand(option: string): (r: string)
    ensures r == Program(Select(option)) + " install"
    ensures r in {"npm install", "yarn install", "pnpm install", "bun install"}
  {
    match option
    case "yarn" => "yarn install"
    case "pnpm" => "pnpm install"
    case "bun" => "bun install"
    case _ => "npm install"
  }

  /** `getDevCommand`: the selected manager's dev script; npm needs `run`. */
  function DevCommand(option: string): (r: string)
    ensures Select(option) != Npm ==> r == Program(Select(option)) + " dev"
    ensures Select(option) == Npm ==> r == "npm run dev"
  {
    match option
    case "yarn" => "yarn dev"
    case "pnpm" => "pnpm dev"
    case "bun" => "bun dev"
    case _ => "npm run dev"
  }

  /** The text of a command up to its first space: the program it runs. */
  function CommandProgram(cmd: string): (r: string)
    ensures r <= cmd
    ensures ' ' !in r
    ensures |r| < |cmd| ==> cmd[|r|] == ' '
  {
    if cmd == [] || cmd[0] == ' ' then [] else [cmd[0]] + CommandProgram(cmd[1..])
  }

  /** Both commands run the executable of the selected manager. */
  lemma {:induction false} CommandsShareProgram(option: string)
    ensures CommandProgram(InstallCommand(option)) == Program(Select(option))
    ensures CommandProgram(DevCommand(option)) == Program(Select(option))
  {
    var p := Program(Select(option));
    ProgramHasNoSpace(Select(option));
    ProgramBeforeSpace(p, " install");
    if Select(option) == Npm {
      ProgramBeforeSpace(p, " run dev");
    } else {
      ProgramBeforeSpace(p, " dev");
    }
  }

  lemma ProgramHasNoSpace(m: PackageManager)
    ensures ' ' !in Program(m)
  {
    match m
    case Npm => assert Program(m) == ['n', 'p', 'm'];
    case Yarn => assert Program(m) == ['y', 'a', 'r', 'n'];
    case Pnpm => assert Program(m) == ['p', 'n', 'p', 'm'];
    case Bun => assert Program(m) == ['b', 'u', 'n'];
  }

  lemma {:induction false} ProgramBeforeSpace(p: string, rest: string)
    requires ' ' !in p
    requires |rest| > 0 && rest[0] == ' '
    ensures CommandProgram(p + rest) == p
  {
    if p != [] {
      assert (p + rest)[1..] == p[1..] + rest;
      ProgramBeforeSpace(p[1..], rest);
    } else {
      assert p + rest == rest;
    }
  }

  /** Two options give the same install command exactly when they select the same manager. */
  lemma InstallCommandDeterminesManager(a: string, b: string)
    ensures InstallCommand(a) == InstallCommand(b) <==> Select(a) == Select(b)
  {
    SelectProgram(Select(a));
    SelectProgram(Select(b));
  }

  /** npm's own commands. */
  lemma NpmCommands()
    ensures InstallCommand("npm") == "npm install"
    ensures DevCommand("npm") == "npm run dev"
  {
    assert Select("npm") == Npm;
  }
}

=== FILE: json.dfy ===
/**
 * The parsed form of a JSON document, as `fs.readJson` hands it to the
 * scaffolder, and the two property operations the scaffolder performs on it:
 * reading `o.k` and assigning `o.k = v`.
 *
 * An object is its list of keys, in the order `JSON.stringify` writes them,
 * and the value of each key. A parsed object names each key once (a repeated
 * key in the text keeps its first position and its last value), assigning to
 * an existing key keeps its position, and assigning to a new key appends it.
 * JavaScript appends every new key that is not an array index ("0", "1", ...);
 * array-index keys it lists first, in ascending order, which `Set` does not
 * model. The scaffolder assigns only `name`, `slug`, `scheme` and `expo`.
 */
module Json {
  import opened Wrappers

  datatype Json =
    | JNull
    | JBool(b: bool)
    | JNum(n: int)
    | JStr(s: string)
    | JArr(items: seq<Json>)
    | JObj(obj: Object)

  datatype Object = Object(keys: seq<string>, values: map<string, Json>)

  /** JavaScript truthiness of a parsed value, as tested by `if (v)`. */
  predicate Truthy(v: Json) {
    match v
    case JNull => false
    case JBool(b) => b
    case JNum(n) => n != 0
    case JStr(s) => s != ""
    case JArr(_) => true
    case JObj(_) => true
  }

  /** The shape `JSON.parse` produces: each key listed once, and exactly the listed keys have values. */
  predicate WellFormed(o: Object) {
    && (forall i, j :: 0 <= i < j < |o.keys| ==> o.keys[i] != o.keys[j])
    && o.values.Keys == set k | k in o.keys
  }

  /** Property read `o[k]`; None stands for `undefined`. */
  function Get(o: Object, k: string): (r: Option<Json>)
    ensures r.Some? <==> k in o.keys && k in o.values
    ensures r.Some? ==> r.value == o.values[k]
  {
    if k in o.keys && k in o.values then Some(o.values[k]) else None
  }

  /** Property assignment `o[k] = v`. */
  function Set(o: Object, k: string, v: Json): (r: Object)
    ensures Get(r, k) == Some(v)
    ensures forall k' :: k' != k ==> Get(r, k') == Get(o, k')
  {
    Object(if k in o.keys then o.keys else o.keys + [k], o.values[k := v])
  }

  /** The key order `Set` produces: an existing key stays where it is, a new one goes last. */
  lemma SetKeepsOrder(o: Object, k: string, v: Json)
    ensures k in o.keys ==> Set(o, k, v).keys == o.keys
    ensures k !in o.keys ==> Set(o, k, v).keys == o.keys + [k]
  {
  }

  /** Assignment keeps an object in the shape `JSON.parse` produces. */
  lemma {:induction false} SetWellFormed(o: Object, k: string, v: Json)
    requires WellFormed(o)
    ensures WellFormed(Set(o, k, v))
  {
    var r := Set(o, k, v);
    if k !in o.keys {
      forall i, j | 0 <= i < j < |r.keys|
        ensures r.keys[i] != r.keys[j]
      {
        if j == |o.keys| {
          assert r.keys[i] == o.keys[i];
        }
      }
    }
  }

  /** Assigning the value a key already holds changes nothing. */
  lemma SetExisting(o: Object, k: string, v: Json)
    requires Get(o, k) == Some(v)
    ensures Set(o, k, v) == o
  {
  }

  /** Assignment is idempotent. */
  lemma SetIdempotent(o: Object, k: string, v: Json)
    ensures Set(Set(o, k, v), k, v) == Set(o, k, v)
  {
    SetExisting(Set(o, k, v), k, v);
  }
}

=== FILE: manifest.dfy ===
/**
 * `updateProjectFiles`: the read-modify-write of the two manifests in a
 * freshly copied project. package.json gets the project name; app.json, when
 * it exists and has a truthy `expo` member, gets the name and the slug in
 * `expo.name`, `expo.slug` and `expo.scheme`.
 *
 * JavaScript semantics carried over: module code runs in strict mode, so
 * assigning a property on `null` or on a primitive throws a TypeError, and
 * reading one on `null` throws too; a property assigned on an array is kept
 * by the array but dropped by `JSON.stringify`, so the file is written back
 * unchanged.
 */
module Manifest {
  import opened Wrappers
  import opened Json
  import Slug

  /** What a manifest path holds: nothing, something `fs.readJson` cannot read or parse, or a document. */
  datatype FileState = Absent | Malformed | Present(doc: Json)

  /** The two manifests of a project directory. */
  datatype Files = Files(packageJson: FileState, appJson: FileState)

  const PackageFile := "package.json"
  const AppFile := "app.json"

  datatype RewriteError =
    | ReadFailed(file: string)    // missing, unreadable or not JSON
    | TypeError(file: string)     // property access on null or a primitive

  /** The files after the rewrite, and the error it threw, if any. */
  datatype Rewrite = Rewrite(files: Files, error: Option<RewriteError>)

  /** The `expo` member as the truthiness test `if (appJson.expo)` sees it; None on a non-object. */
  function Expo(doc: Json): Option<Json> {
    if doc.JObj? then Get(doc.obj, "expo") else None
  }

  /** `packageJson.name = projectName`, then serialisation. */
  function SetPackageName(doc: Json, name: string): (r: Result<Json, RewriteError>)
    ensures doc.JObj? ==> r.Success? && r.value.JObj?
    ensures doc.JObj? ==> Get(r.value.obj, "name") == Some(JStr(name))
    ensures doc.JArr? ==> r == Success(doc)
    ensures !doc.JObj? && !doc.JArr? ==> r == Failure(TypeError(PackageFile))
  {
    match doc
    case JObj(ms) => Success(JObj(Set(ms, "name", JStr(name))))
    case JArr(_) => Success(doc)
    case _ => Failure(TypeError(PackageFile))
  }

  /** The members of `expo` after the three assignments of lines 225-227. */
  function PatchExpo(expo: Object, name: string): (r: Object)
    ensures Get(r, "name") == Some(JStr(name))
    ensures Get(r, "slug") == Some(JStr(Slug.Slugify(name)))
    ensures Get(r, "scheme") == Get(r, "slug")
    ensures forall k :: k != "name" && k != "slug" && k != "scheme" ==> Get(r, k) == Get(expo, k)
  {
    var slug := Slug.Slugify(name);
    Set(Set(Set(expo, "name", JStr(name)), "slug", JStr(slug)), "scheme", JStr(slug))
  }

  /** The app.json rewrite: only a truthy object-valued `expo` changes anything. */
  function PatchApp(doc: Json, name: string): (r: Result<Json, RewriteError>)
    ensures doc.JNull? ==> r == Failure(TypeError(AppFile))
    ensures !doc.JNull? && (Expo(doc).None? || !Truthy(Expo(doc).value) || Expo(doc).value.JArr?)
      ==> r == Success(doc)
    ensures Expo(doc).Some? && Truthy(Expo(doc).value) && !Expo(doc).value.JObj? && !Expo(doc).value.JArr?
      ==> r == Failure(TypeError(AppFile))
    ensures Expo(doc).Some? && Expo(doc).value.JObj? ==>
      && r.Success? && r.value.JObj?
      && Get(r.value.obj, "expo") == Some(JObj(PatchExpo(Expo(doc).value.obj, name)))
  {
    var expo := Expo(doc);
    if doc.JNull? then Failure(TypeError(AppFile))
    else if expo.None? || !Truthy(expo.value) || expo.value.JArr? then Success(doc)
    else if expo.value.JObj? then Success(JObj(Set(doc.obj, "expo", JObj(PatchExpo(expo.value.obj, name)))))
    else Failure(TypeError(AppFile))
  }

  /** Naming the package leaves every other member of package.json as it was. */
  lemma SetPackageNameKeepsOthers(doc: Json, name: string, k: string)
    requires doc.JObj? && k != "name"
    ensures Get(SetPackageName(doc, name).value.obj, k) == Get(doc.obj, k)
  {
  }

  /** Patching `expo` leaves every other member of app.json as it was. */
  lemma PatchAppKeepsOthers(doc: Json, name: string, k: string)
    requires Expo(doc).Some? && Expo(doc).value.JObj? && k != "expo"
    ensures Get(PatchApp(doc, name).value.obj, k) == Get(doc.obj, k)
  {
  }

  /** Naming the package keeps package.json in the shape `JSON.parse` produces. */
  lemma SetPackageNameWellFormed(doc: Json, name: string)
    requires doc.JObj? && WellFormed(doc.obj)
    ensures SetPackageName(doc, name).value.JObj? && WellFormed(SetPackageName(doc, name).value.obj)
  {
    SetWellFormed(doc.obj, "name", JStr(name));
  }

  /** Patching keeps app.json, and its `expo` object, in the shape `JSON.parse` produces. */
  lemma PatchAppWellFormed(doc: Json, name: string)
    requires doc.JObj? && WellFormed(doc.obj)
    requires Expo(doc).Some? && Expo(doc).value.JObj? && WellFormed(Expo(doc).value.obj)
    ensures var r := PatchApp(doc, name).value;
      && r.JObj? && WellFormed(r.obj)
      && Expo(r).Some? && Expo(r).value.JObj? && WellFormed(Expo(r).value.obj)
  {
    var expo := Expo(doc).value.obj;
    var slug := Slug.Slugify(name);
    SetWellFormed(expo, "name", JStr(name));
    SetWellFormed(Set(expo, "name", JStr(name)), "slug", JStr(slug));
    SetWellFormed(Set(Set(expo, "name", JStr(name)), "slug", JStr(slug)), "scheme", JStr(slug));
    SetWellFormed(doc.obj, "expo", JObj(PatchExpo(expo, name)));
  }

  /** package.json was read and naming the package did not throw. */
  predicate PackageAccepted(files: Files, name: string) {
    files.packageJson.Present? && SetPackageName(files.packageJson.doc, name).Success?
  }

  /**
   * `updateProjectFiles`. package.json is written before app.json is read,
   * so a failure on app.json leaves the new package.json in place.
   */
  function UpdateProjectFiles(files: Files, name: string): (r: Rewrite)
    ensures !files.packageJson.Present? ==> r == Rewrite(files, Some(ReadFailed(PackageFile)))
    ensures r.error.None? ==> files.packageJson.Present? && SetPackageName(files.packageJson.doc, name).Success?
    ensures files.packageJson.Present? && SetPackageName(files.packageJson.doc, name).Success? ==>
      r.files.packageJson == Present(SetPackageName(files.packageJson.doc, name).value)
    ensures files.appJson.Absent? ==> r.files.appJson == Absent
    ensures files.appJson.Malformed? && files.packageJson.Present? ==> r.error.Some?
    ensures r.files.appJson != files.appJson ==>
      && r.error.None? && files.appJson.Present? && r.files.appJson.Present?
      && PatchApp(files.appJson.doc, name) == Success(r.files.appJson.doc)
    ensures files.packageJson.Present? && SetPackageName(files.packageJson.doc, name).Failure? ==>
      r == Rewrite(files, Some(SetPackageName(files.packageJson.doc, name).error))
    ensures PackageAccepted(files, name) && files.appJson.Absent? ==> r.error.None?
    ensures PackageAccepted(files, name) && files.appJson.Malformed? ==>
      r.error == Some(ReadFailed(AppFile)) && r.files.appJson == Malformed
    ensures PackageAccepted(files, name) && files.appJson.Present? ==>
      var patched := PatchApp(files.appJson.doc, name);
      && (patched.Failure? ==> r.error == Some(patched.error) && r.files.appJson == files.appJson)
      && (patched.Success? ==> r.error.None? && r.files.appJson == Present(patched.value))
  {
    match files.packageJson
    case Absent => Rewrite(files, Some(ReadFailed(PackageFile)))
    case Malformed => Rewrite(files, Some(ReadFailed(PackageFile)))
    case Present(p) =>
      match SetPackageName(p, name)
      case Failure(e) => Rewrite(files, Some(e))
      case Success(p') =>
        var written := files.(packageJson := Present(p'));
        match files.appJson
        case Absent => Rewrite(written, None)
        case Malformed => Rewrite(written, Some(ReadFailed(AppFile)))
        case Present(a) =>
          match PatchApp(a, name)
          case Failure(e) => Rewrite(written, Some(e))
          case Success(a') => Rewrite(written.(appJson := Present(a')), None)
  }

  /** Assigning the name, slug and scheme a second time changes nothing. */
  lemma PatchExpoIdempotent(expo: Object, name: string)
    ensures PatchExpo(PatchExpo(expo, name), name) == PatchExpo(expo, name)
  {
    var once := PatchExpo(expo, name);
    var slug := Slug.Slugify(name);
    SetExisting(once, "name", JStr(name));
    SetExisting(once, "slug", JStr(slug));
    SetExisting(once, "scheme", JStr(slug));
  }

  lemma SetPackageNameIdempotent(doc: Json, name: string)
    requires SetPackageName(doc, name).Success?
    ensures SetPackageName(SetPackageName(doc, name).value, name) == SetPackageName(doc, name)
  {
    if doc.JObj? {
      SetIdempotent(doc.obj, "name", JStr(name));
    }
  }

  lemma PatchAppIdempotent(doc: Json, name: string)
    requires PatchApp(doc, name).Success?
    ensures PatchApp(PatchApp(doc, name).value, name) == PatchApp(doc, name)
  {
    if Expo(doc).Some? && Expo(doc).value.JObj? {
      var patched := JObj(PatchExpo(Expo(doc).value.obj, name));
      PatchExpoIdempotent(Expo(doc).value.obj, name);
      SetExisting(PatchApp(doc, name).value.obj, "expo", patched);
    }
  }

  /** Running the rewrite a second time with the same name reproduces the first run, files and error alike. */
  lemma UpdateProjectFilesIdempotent(files: Files, name: string)
    ensures UpdateProjectFiles(UpdateProjectFiles(files, name).files, name) == UpdateProjectFiles(files, name)
  {
    if files.packageJson.Present? && SetPackageName(files.packageJson.doc, name).Success? {
      SetPackageNameIdempotent(files.packageJson.doc, name);
      if files.appJson.Present? && PatchApp(files.appJson.doc, name).Success? {
        PatchAppIdempotent(files.appJson.doc, name);
      }
    }
  }

  /**
   * A successful rewrite of a project whose app.json has an `expo` object
   * leaves the project name in `expo.name` and the same slug in `expo.slug`
   * and `expo.scheme`.
   */
  lemma AppManifestIdentity(files: Files, name: string)
    requires files.appJson.Present? && Expo(files.appJson.doc).Some? && Expo(files.appJson.doc).value.JObj?
    requires UpdateProjectFiles(files, name).error.None?
    ensures var app := UpdateProjectFiles(files, name).files.appJson;
      && app.Present? && Expo(app.doc).Some? && Expo(app.doc).value.JObj?
      && var expo := Expo(app.doc).value.obj;
      && Get(expo, "name") == Some(JStr(name))
      && Get(expo, "slug") == Some(JStr(Slug.Slugify(name)))
      && Get(expo, "scheme") == Get(expo, "slug")
  {
  }

  /** ... and every other member of `expo`, and of app.json, as it was. */
  lemma AppManifestKeepsOtherMembers(files: Files, name: string)
    requires files.appJson.Present? && Expo(files.appJson.doc).Some? && Expo(files.appJson.doc).value.JObj?
    requires UpdateProjectFiles(files, name).error.None?
    ensures var app := UpdateProjectFiles(files, name).files.appJson;
      && app.Present? && app.doc.JObj? && Expo(app.doc).Some? && Expo(app.doc).value.JObj?
      && (forall k :: k != "name" && k != "slug" && k != "scheme" ==>
            Get(Expo(app.doc).value.obj, k) == Get(Expo(files.appJson.doc).value.obj, k))
      && (forall k :: k != "expo" ==> Get(app.doc.obj, k) == Get(files.appJson.doc.obj, k))
  {
    forall k | k != "expo"
      ensures Get(PatchApp(files.appJson.doc, name).value.obj, k) == Get(files.appJson.doc.obj, k)
    {
      PatchAppKeepsOthers(files.appJson.doc, name, k);
    }
  }

  /** A successful rewrite leaves the project name in package.json and every other member as it was. */
  lemma PackageManifestIdentity(files: Files, name: string)
    requires UpdateProjectFiles(files, name).error.None?
    requires files.packageJson.doc.JObj?
    ensures var pkg := UpdateProjectFiles(files, name).files.packageJson;
      && pkg.Present? && pkg.doc.JObj?
      && Get(pkg.doc.obj, "name") == Some(JStr(name))
      && forall k :: k != "name" ==> Get(pkg.doc.obj, k) == Get(files.packageJson.doc.obj, k)
  {
    forall k | k != "name"
      ensures Get(SetPackageName(files.packageJson.doc, name).value.obj, k) == Get(files.packageJson.doc.obj, k)
    {
      SetPackageNameKeepsOthers(files.packageJson.doc, name, k);
    }
  }

  /** The shape of the template's manifests: an object package.json, and an app.json with an `expo` object. */
  predicate ExpoTemplate(files: Files) {
    && files.packageJson.Present? && files.packageJson.doc.JObj?
    && files.appJson.Present? && Expo(files.appJson.doc).Some? && Expo(files.appJson.doc).value.JObj?
  }

  /**
   * A template of that shape is rewritten without error: the package is
   * named after the project, and so is the app, whose slug and scheme are
   * the project name's slug.
   */
  lemma TemplateRewrite(files: Files, name: string)
    requires ExpoTemplate(files)
    ensures var r := UpdateProjectFiles(files, name);
      && r.error.None?
      && var pkg := r.files.packageJson;
      && pkg.Present? && pkg.doc.JObj?
      && Get(pkg.doc.obj, "name") == Some(JStr(name))
      && var app := r.files.appJson;
      && app.Present? && Expo(app.doc).Some? && Expo(app.doc).value.JObj?
      && var expo := Expo(app.doc).value.obj;
      && Get(expo, "name") == Some(JStr(name))
      && Get(expo, "slug") == Some(JStr(Slug.Slugify(name)))
      && Get(expo, "scheme") == Some(JStr(Slug.Slugify(name)))
  {
    assert SetPackageName(files.packageJson.doc, name).Success?;
    assert PatchApp(files.appJson.doc, name).Success?;
    AppManifestIdentity(files, name);
    PackageManifestIdentity(files, name);
  }

  /** For the name "demo-app" all four fields read "demo-app". */
  lemma DemoAppManifests(files: Files)
    requires ExpoTemplate(files)
    ensures var r := UpdateProjectFiles(files, "demo-app");
      && r.error.None?
      && var pkg := r.files.packageJson;
      && pkg.Present? && pkg.doc.JObj?
      && Get(pkg.doc.obj, "name") == Some(JStr("demo-app"))
      && var app := r.files.appJson;
      && app.Present? && Expo(app.doc).Some? && Expo(app.doc).value.JObj?
      && var expo := Expo(app.doc).value.obj;
      && Get(expo, "name") == Some(JStr("demo-app"))
      && Get(expo, "slug") == Some(JStr("demo-app"))
      && Get(expo, "scheme") == Some(JStr("demo-app"))
  {
    Slug.SlugOfSlugName();
    TemplateRewrite(files, "demo-app");
  }
}

=== FILE: orchestrator.dfy ===
/**
 * `createProject`: the sequence of steps that turns a project name into a
 * project directory, and the rule that decides what happens when a step
 * fails. Every step except the dependency install is fatal: the run ends
 * with exit code 1 and nothing after the failed step is attempted. A failed
 * install only adds a manual-recovery hint to an otherwise successful run.
 *
 * The disk is a set of existing paths. The outcome of each step that
 * touches the disk or spawns a process is an input, and so are the answers
 * typed at the prompt and the package-name rules.
 */
module Orchestrator {
  import opened Wrappers
  import Prompt
  import Commands
  import Manifest

  /** Command-line options; an empty `packageManager` stands for an option left unset. */
  datatype Options = Options(packageManager: string, skipInstall: bool)

  /** `options.packageManager || "npm"`. */
  function Manager(opts: Options): string {
    if opts.packageManager == "" then "npm" else opts.packageManager
  }

  /** How `fs.copy` of the template ends: complete, or failed after copying some of it. */
  datatype CopyOutcome = Copied | CopyFailed(partial: set<string>)

  /** Everything outside the process that a run observes. */
  datatype Environment = Environment(
    cwd: string,                              // process.cwd()
    existing: set<string>,                    // paths that exist before the run
    template: set<string>,                    // relative paths of the template tree
    templateManifests: Manifest.Files,        // the template's package.json and app.json
    answers: seq<string>,                     // what the user types at the prompt, in order
    validate: string -> Prompt.Validation,    // validate-npm-package-name
    mkdirSucceeds: bool,                      // fs.ensureDirSync
    copy: CopyOutcome,                        // fs.copy
    installSucceeds: bool)                    // execSync of the install command

  datatype Step =
    | ValidateName
    | CheckPath
    | CreateDirectory
    | CopyTemplate
    | UpdateConfiguration
    | InstallDependencies

  /** A failure of every step but the install aborts the run. */
  predicate Fatal(s: Step) {
    s != InstallDependencies
  }

  /** The observable state: existing paths, and the manifests at the project path. */
  datatype World = World(disk: set<string>, manifests: Manifest.Files)

  datatype Outcome =
    | AwaitingName                      // no typed answer has passed the prompt yet
    | Aborted(at: Step)                 // process.exit(1) after this step failed
    | Completed(manualInstall: seq<string>, nextSteps: seq<string>)

  /** The steps attempted in order, how the run ended, and the world it left. */
  datatype Run = Run(trace: seq<Step>, outcome: Outcome, world: World)

  function ExitCode(o: Outcome): int
    requires !o.AwaitingName?
  {
    if o.Aborted? then 1 else 0
  }

  /** `path.resolve(process.cwd(), name)`. */
  function ProjectPath(cwd: string, name: string): string {
    cwd + "/" + name
  }

  /** The absolute paths of template entries copied below `dir`. */
  function Below(dir: string, rel: set<string>): set<string> {
    set r | r in rel :: dir + "/" + r
  }

  function Start(env: Environment): World {
    World(env.existing, Manifest.Files(Manifest.Absent, Manifest.Absent))
  }

  /** The name the run works on: the argument, or the first answer the prompt accepts. */
  function ResolveName(arg: string, env: Environment): Option<string> {
    if arg != "" then Some(arg)
    else match Prompt.Ask(env.answers, env.validate)
      case None => None
      case Some(i) => Some(env.answers[i])
  }

  /** Printed after a failed install: `cd <name>` and the install command. */
  function ManualInstall(name: string, opts: Options): seq<string> {
    ["cd " + name, Commands.InstallCommand(Manager(opts))]
  }

  /** The "Next steps" list. */
  function NextSteps(name: string, opts: Options): seq<string> {
    ["cd " + name]
    + (if opts.skipInstall then [Commands.InstallCommand(Manager(opts))] else [])
    + [Commands.DevCommand(Manager(opts))]
  }

  /**
   * `createProject`: collect a name if none was given, then build the
   * project. Steps are attempted in pipeline order; a run that aborts stops
   * right after the fatal step that failed, and a run that completes went
   * through every step of the pipeline. Only a run without an argument
   * whose answers all fail the prompt is left waiting.
   */
  function CreateProject(arg: string, opts: Options, env: Environment): (r: Run)
    ensures r.trace <= Pipeline(opts)
    ensures r.outcome.Aborted? ==> |r.trace| > 0 && r.trace[|r.trace| - 1] == r.outcome.at && Fatal(r.outcome.at)
    ensures r.outcome.Completed? ==> r.trace == Pipeline(opts)
    ensures r.outcome.AwaitingName? <==>
      arg == "" && forall i :: 0 <= i < |env.answers| ==> !Prompt.Passes(env.answers[i], env.validate)
  {
    match ResolveName(arg, env)
    case None => Run([], AwaitingName, Start(env))
    case Some(name) => Build(name, opts, env)
  }

  /** `createProject` from the validation of line 92 on, step by step as the source runs it. */
  function Build(name: string, opts: Options, env: Environment): (r: Run)
  {
      var start := Start(env);
      var path := ProjectPath(env.cwd, name);
      if !env.validate(name).validForNewPackages then
        Run([ValidateName], Aborted(ValidateName), start)
      else if path in env.existing then
        Run([ValidateName, CheckPath], Aborted(CheckPath), start)
      else if !env.mkdirSucceeds then
        Run([ValidateName, CheckPath, CreateDirectory], Aborted(CreateDirectory), start)
      else
        var made := start.(disk := start.disk + {path});
        match env.copy
        case CopyFailed(partial) =>
          Run([ValidateName, CheckPath, CreateDirectory, CopyTemplate], Aborted(CopyTemplate),
              made.(disk := made.disk + Below(path, partial * env.template)))
        case Copied =>
          BuildCopied(name, opts, env, World(made.disk + Below(path, env.template), env.templateManifests))
  }

  /** `createProject` from the manifest rewrite of line 146 on, in the world the copy left. */
  function BuildCopied(name: string, opts: Options, env: Environment, copied: World): Run {
    var rewrite := Manifest.UpdateProjectFiles(copied.manifests, name);
    var updated := copied.(manifests := rewrite.files);
    var upToUpdate := [ValidateName, CheckPath, CreateDirectory, CopyTemplate, UpdateConfiguration];
    if rewrite.error.Some? then
      Run(upToUpdate, Aborted(UpdateConfiguration), updated)
    else if opts.skipInstall then
      Run(upToUpdate, Completed([], NextSteps(name, opts)), updated)
    else
      Run(upToUpdate + [InstallDependencies],
          Completed(if env.installSucceeds then [] else ManualInstall(name, opts), NextSteps(name, opts)),
          updated)
  }

  // ---------------------------------------------------------------------------
  // The abort policy as a state machine over an arbitrary list of steps
  // ---------------------------------------------------------------------------

  /** The steps a run goes through when nothing fails. */
  function Pipeline(opts: Options): seq<Step> {
    [ValidateName] + FromCheckPath(opts)
  }

  // The pipeline's suffixes, each one step shorter than the one before.
  function FromCheckPath(opts: Options): seq<Step> { [CheckPath] + FromCreateDirectory(opts) }
  function FromCreateDirectory(opts: Options): seq<Step> { [CreateDirectory] + FromCopyTemplate(opts) }
  function FromCopyTemplate(opts: Options): seq<Step> { [CopyTemplate] + FromUpdate(opts) }
  function FromUpdate(opts: Options): seq<Step> { [UpdateConfiguration] + FromInstall(opts) }
  function FromInstall(opts: Options): seq<Step> {
    if opts.skipInstall then [] else [InstallDependencies]
  }

  /** The world after one step, and whether the step succeeded. */
  datatype Attempt = Attempt(world: World, ok: bool)

  function Perform(s: Step, name: string, env: Environment, w: World): Attempt {
    match s
    case ValidateName => Attempt(w, env.validate(name).validForNewPackages)
    case CheckPath => Attempt(w, ProjectPath(env.cwd, name) !in w.disk)
    case CreateDirectory => MakeDirectory(ProjectPath(env.cwd, name), env, w)
    case CopyTemplate => CopyInto(ProjectPath(env.cwd, name), env, w)
    case UpdateConfiguration => Configure(name, w)
    case InstallDependencies => Attempt(w, env.installSucceeds)
  }

  /** `fs.ensureDirSync(projectPath)`. */
  function MakeDirectory(path: string, env: Environment, w: World): Attempt {
    if env.mkdirSucceeds then Attempt(w.(disk := w.disk + {path}), true) else Attempt(w, false)
  }

  /** `fs.copy(templatePath, projectPath)`: a failed copy keeps what it already wrote. */
  function CopyInto(path: string, env: Environment, w: World): Attempt {
    match env.copy
    case Copied => Attempt(World(w.disk + Below(path, env.template), env.templateManifests), true)
    case CopyFailed(partial) => Attempt(w.(disk := w.disk + Below(path, partial * env.template)), false)
  }

  /** `updateProjectFiles(projectPath, name)` on the manifests at the project path. */
  function Configure(name: string, w: World): Attempt {
    var rewrite := Manifest.UpdateProjectFiles(w.manifests, name);
    Attempt(w.(manifests := rewrite.files), rewrite.error.None?)
  }

  /** The steps attempted, the world left, the fatal step that stopped the run, and whether a non-fatal step failed. */
  datatype Execution = Execution(trace: seq<Step>, world: World, stopped: Option<Step>, warned: bool)

  /** Runs the steps in order, stopping right after the first fatal failure. */
  function Execute(steps: seq<Step>, name: string, env: Environment, w: World): (e: Execution)
    ensures e.trace <= steps
    ensures e.stopped.None? ==> e.trace == steps
    ensures e.stopped.Some? ==> |e.trace| > 0 && e.trace[|e.trace| - 1] == e.stopped.value && Fatal(e.stopped.value)
    ensures e.warned ==> exists i :: 0 <= i < |e.trace| && !Fatal(e.trace[i])
    decreases |steps|
  {
    if steps == [] then Execution([], w, None, false)
    else
      var a := Perform(steps[0], name, env, w);
      if !a.ok && Fatal(steps[0]) then Execution([steps[0]], a.world, Some(steps[0]), false)
      else
        var rest := Execute(steps[1..], name, env, a.world);
        assert steps == [steps[0]] + steps[1..];
        Execution([steps[0]] + rest.trace, rest.world, rest.stopped, rest.warned || !a.ok)
  }

  /** The run the abort policy prescribes for a resolved name. */
  function ByPolicy(name: string, opts: Options, env: Environment): Run {
    var e := Execute(Pipeline(opts), name, env, Start(env));
    Run(e.trace,
        if e.stopped.Some? then Aborted(e.stopped.value)
        else Completed(if e.warned then ManualInstall(name, opts) else [], NextSteps(name, opts)),
        e.world)
  }

  /**
   * A run that stops has run every step before the last without stopping,
   * and the last step failed in the world those steps left.
   */
  lemma {:induction false} ExecuteStopsAtFailure(steps: seq<Step>, name: string, env: Environment, w: World)
    requires Execute(steps, name, env, w).stopped.Some?
    ensures StoppedByLast(steps, name, env, w)
    decreases |steps|
  {
    var a := Perform(steps[0], name, env, w);
    if !a.ok && Fatal(steps[0]) {
      assert steps[..0] == [];
    } else {
      ExecuteFirst(steps[0], steps[1..], name, env, w);
      assert steps == [steps[0]] + steps[1..];
      ExecuteStopsAtFailure(steps[1..], name, env, a.world);
      StopsAfterFirst(steps, name, env, w);
    }
  }

  /** The steps before the last one attempted ran without stopping, and the last one failed. */
  ghost predicate StoppedByLast(steps: seq<Step>, name: string, env: Environment, w: World)
    requires Execute(steps, name, env, w).stopped.Some?
  {
    var n := |Execute(steps, name, env, w).trace| - 1;
    var before := Execute(steps[..n], name, env, w);
    && before.stopped.None?
    && !Perform(steps[n], name, env, before.world).ok
  }

  /** The inductive step: a run that stops after a first step that did not stop it. */
  lemma StopsAfterFirst(steps: seq<Step>, name: string, env: Environment, w: World)
    requires |steps| > 0
    requires Perform(steps[0], name, env, w).ok || !Fatal(steps[0])
    requires Execute(steps[1..], name, env, Perform(steps[0], name, env, w).world).stopped.Some?
    requires StoppedByLast(steps[1..], name, env, Perform(steps[0], name, env, w).world)
    ensures Execute(steps, name, env, w).stopped.Some?
    ensures StoppedByLast(steps, name, env, w)
  {
    var a := Perform(steps[0], name, env, w);
    var rest := Execute(steps[1..], name, env, a.world);
    var m := |rest.trace| - 1;
    PrefixAfterFirst(steps, m + 1);
    ExecuteFirst(steps[0], steps[1..], name, env, w);
    var front := steps[1..][..m];
    ExecuteFirst(steps[0], front, name, env, w);
    var before := Execute(steps[..m + 1], name, env, w);
    assert before.world == Execute(front, name, env, a.world).world;
    assert before.stopped.None?;
    assert steps[m + 1] == steps[1..][m];
  }

  /**
   * A run that does not stop passed every fatal step: each of them succeeded
   * in the world the steps before it left.
   */
  lemma {:induction false} ExecuteRunsPastFatalSteps(steps: seq<Step>, name: string, env: Environment, w: World)
    requires Execute(steps, name, env, w).stopped.None?
    ensures forall i :: 0 <= i < |steps| && Fatal(steps[i]) ==>
      Perform(steps[i], name, env, Execute(steps[..i], name, env, w).world).ok
    decreases |steps|
  {
    if steps != [] {
      var a := Perform(steps[0], name, env, w);
      PrefixAfterFirst(steps, 1);
      ExecuteFirst(steps[0], steps[1..], name, env, w);
      ExecuteRunsPastFatalSteps(steps[1..], name, env, a.world);
      forall i | 0 <= i < |steps| && Fatal(steps[i])
        ensures Perform(steps[i], name, env, Execute(steps[..i], name, env, w).world).ok
      {
        if i > 0 {
          PrefixWorld(steps, i, name, env, w);
        }
      }
    }
  }

  /** After a first step that does not stop the run, a longer prefix ends where the rest's prefix does. */
  lemma PrefixWorld(steps: seq<Step>, i: nat, name: string, env: Environment, w: World)
    requires 0 < i < |steps|
    requires Perform(steps[0], name, env, w).ok || !Fatal(steps[0])
    ensures var a := Perform(steps[0], name, env, w);
      && Execute(steps[..i], name, env, w).world == Execute(steps[1..][..i - 1], name, env, a.world).world
      && steps[i] == steps[1..][i - 1]
  {
    PrefixAfterFirst(steps, i);
    ExecuteFirst(steps[0], steps[1..][..i - 1], name, env, w);
  }

  /** A non-empty prefix is its first element followed by a prefix of the tail. */
  lemma PrefixAfterFirst<T>(s: seq<T>, k: nat)
    requires 0 < k <= |s|
    ensures s == [s[0]] + s[1..]
    ensures s[..k] == [s[0]] + s[1..][..k - 1]
  {
  }

  /** Step `i` was attempted, is not fatal, and failed in the world the steps before it left. */
  ghost predicate WarnsAt(steps: seq<Step>, i: nat, name: string, env: Environment, w: World) {
    && i < |Execute(steps, name, env, w).trace|
    && !Fatal(steps[i])
    && !Perform(steps[i], name, env, Execute(steps[..i], name, env, w).world).ok
  }

  /**
   * A run warns exactly when one of the steps it attempted is non-fatal and
   * failed in the world the steps before it left.
   */
  lemma {:induction false} ExecuteWarnsAtFailure(steps: seq<Step>, name: string, env: Environment, w: World)
    ensures Execute(steps, name, env, w).warned <==> exists i: nat :: WarnsAt(steps, i, name, env, w)
    decreases |steps|
  {
    if steps == [] {
      assert forall i: nat :: !WarnsAt(steps, i, name, env, w);
    } else {
      var a := Perform(steps[0], name, env, w);
      if !a.ok && Fatal(steps[0]) {
        NoWarningAfterStop(steps, name, env, w);
      } else {
        ExecuteWarnsAtFailure(steps[1..], name, env, a.world);
        WarnsAfterFirst(steps, name, env, w);
      }
    }
  }

  /** A run stopped by its first step attempts nothing else and does not warn. */
  lemma NoWarningAfterStop(steps: seq<Step>, name: string, env: Environment, w: World)
    requires |steps| > 0
    requires !Perform(steps[0], name, env, w).ok && Fatal(steps[0])
    ensures !Execute(steps, name, env, w).warned
    ensures forall i: nat :: !WarnsAt(steps, i, name, env, w)
  {
    PrefixAfterFirst(steps, 1);
    ExecuteFirst(steps[0], steps[1..], name, env, w);
  }

  /** The inductive step: a first step that does not stop the run. */
  lemma WarnsAfterFirst(steps: seq<Step>, name: string, env: Environment, w: World)
    requires |steps| > 0
    requires Perform(steps[0], name, env, w).ok || !Fatal(steps[0])
    requires var w1 := Perform(steps[0], name, env, w).world;
      Execute(steps[1..], name, env, w1).warned <==> exists i: nat :: WarnsAt(steps[1..], i, name, env, w1)
    ensures Execute(steps, name, env, w).warned <==> exists i: nat :: WarnsAt(steps, i, name, env, w)
  {
    WarningFound(steps, name, env, w);
    WarningReported(steps, name, env, w);
  }

  /** How the first step that does not stop the run contributes to the warning. */
  lemma WarningOfFirst(steps: seq<Step>, name: string, env: Environment, w: World)
    requires |steps| > 0
    requires Perform(steps[0], name, env, w).ok || !Fatal(steps[0])
    ensures var a := Perform(steps[0], name, env, w);
      && Execute(steps, name, env, w).warned == (Execute(steps[1..], name, env, a.world).warned || !a.ok)
      && (WarnsAt(steps, 0, name, env, w) <==> !a.ok)
  {
    PrefixAfterFirst(steps, 1);
    ExecuteFirst(steps[0], steps[1..], name, env, w);
  }

  /** A warning comes from a step that warns. */
  lemma WarningFound(steps: seq<Step>, name: string, env: Environment, w: World)
    requires |steps| > 0
    requires Perform(steps[0], name, env, w).ok || !Fatal(steps[0])
    requires var w1 := Perform(steps[0], name, env, w).world;
      Execute(steps[1..], name, env, w1).warned ==> exists i: nat :: WarnsAt(steps[1..], i, name, env, w1)
    ensures Execute(steps, name, env, w).warned ==> exists i: nat :: WarnsAt(steps, i, name, env, w)
  {
    var a := Perform(steps[0], name, env, w);
    WarningOfFirst(steps, name, env, w);
    if Execute(steps, name, env, w).warned {
      if !a.ok {
        assert WarnsAt(steps, 0, name, env, w);
      } else {
        var j: nat :| WarnsAt(steps[1..], j, name, env, a.world);
        WarnsShift(steps, j, name, env, w);
        assert WarnsAt(steps, j + 1, name, env, w);
      }
    }
  }

  /** A step that warns makes the run warn. */
  lemma WarningReported(steps: seq<Step>, name: string, env: Environment, w: World)
    requires |steps| > 0
    requires Perform(steps[0], name, env, w).ok || !Fatal(steps[0])
    requires var w1 := Perform(steps[0], name, env, w).world;
      (exists i: nat :: WarnsAt(steps[1..], i, name, env, w1)) ==> Execute(steps[1..], name, env, w1).warned
    ensures (exists i: nat :: WarnsAt(steps, i, name, env, w)) ==> Execute(steps, name, env, w).warned
  {
    var a := Perform(steps[0], name, env, w);
    WarningOfFirst(steps, name, env, w);
    if exists i: nat :: WarnsAt(steps, i, name, env, w) {
      var i: nat :| WarnsAt(steps, i, name, env, w);
      if i > 0 {
        WarnsShift(steps, i - 1, name, env, w);
        assert WarnsAt(steps[1..], i - 1, name, env, a.world);
      }
    }
  }

  /** After a first step that does not stop the run, step `j + 1` warns iff step `j` of the rest does. */
  lemma WarnsShift(steps: seq<Step>, j: nat, name: string, env: Environment, w: World)
    requires j + 1 < |steps|
    requires Perform(steps[0], name, env, w).ok || !Fatal(steps[0])
    ensures WarnsAt(steps, j + 1, name, env, w) <==> WarnsAt(steps[1..], j, name, env, Perform(steps[0], name, env, w).world)
  {
    var a := Perform(steps[0], name, env, w);
    PrefixAfterFirst(steps, j + 1);
    ExecuteFirst(steps[0], steps[1..], name, env, w);
    ExecuteFirst(steps[0], steps[1..][..j], name, env, w);
    assert steps[j + 1] == steps[1..][j];
  }

  /** One step of the state machine: the first step, then the rest from the world it left. */
  lemma ExecuteFirst(s: Step, rest: seq<Step>, name: string, env: Environment, w: World)
    ensures var a := Perform(s, name, env, w);
      Execute([s] + rest, name, env, w) ==
        if !a.ok && Fatal(s) then Execution([s], a.world, Some(s), false)
        else
          var e := Execute(rest, name, env, a.world);
          Execution([s] + e.trace, e.world, e.stopped, e.warned || !a.ok)
  {
    assert ([s] + rest)[1..] == rest;
  }

  /** The policy from the manifest rewrite on. */
  lemma PolicyFromUpdate(name: string, opts: Options, env: Environment, w: World)
    ensures var rewrite := Manifest.UpdateProjectFiles(w.manifests, name);
      var updated := w.(manifests := rewrite.files);
      Execute(FromUpdate(opts), name, env, w) ==
        if rewrite.error.Some? then Execution([UpdateConfiguration], updated, Some(UpdateConfiguration), false)
        else if opts.skipInstall then Execution([UpdateConfiguration], updated, None, false)
        else Execution([UpdateConfiguration, InstallDependencies], updated, None, !env.installSucceeds)
  {
    var rewrite := Manifest.UpdateProjectFiles(w.manifests, name);
    var updated := w.(manifests := rewrite.files);
    ExecuteFirst(UpdateConfiguration, FromInstall(opts), name, env, w);
    if rewrite.error.None? && !opts.skipInstall {
      ExecuteFirst(InstallDependencies, [], name, env, updated);
    }
  }

  /** Once a name is known, the source's straight-line code is exactly the abort policy run over the pipeline. */
  lemma {:induction false} BuildFollowsPolicy(name: string, opts: Options, env: Environment)
    ensures Build(name, opts, env) == ByPolicy(name, opts, env)
  {
    var path := ProjectPath(env.cwd, name);
    if !env.validate(name).validForNewPackages || path in env.existing || !env.mkdirSucceeds {
      PolicyBeforeCopy(name, opts, env);
    } else if env.copy.Copied? {
      BuildAfterCopy(name, opts, env);
    } else {
      PolicyCopyFails(name, opts, env);
    }
  }

  /** The state machine and the straight-line code agree when the run stops before the copy. */
  lemma PolicyBeforeCopy(name: string, opts: Options, env: Environment)
    requires !env.validate(name).validForNewPackages || ProjectPath(env.cwd, name) in env.existing || !env.mkdirSucceeds
    ensures Build(name, opts, env) == ByPolicy(name, opts, env)
  {
    var w0 := Start(env);
    var e := Execute(Pipeline(opts), name, env, w0);
    if !env.validate(name).validForNewPackages {
      ExecuteFirst(ValidateName, FromCheckPath(opts), name, env, w0);
      assert e == Execution([ValidateName], w0, Some(ValidateName), false);
    } else if ProjectPath(env.cwd, name) in env.existing {
      PolicyStopsAtCheck(name, opts, env);
    } else {
      PolicyStopsAtDirectory(name, opts, env);
    }
  }

  /** The policy stops at the path check when the path exists. */
  lemma PolicyStopsAtCheck(name: string, opts: Options, env: Environment)
    requires env.validate(name).validForNewPackages
    requires ProjectPath(env.cwd, name) in env.existing
    ensures Execute(Pipeline(opts), name, env, Start(env)) ==
      Execution([ValidateName, CheckPath], Start(env), Some(CheckPath), false)
  {
    var w0 := Start(env);
    ExecuteFirst(ValidateName, FromCheckPath(opts), name, env, w0);
    ExecuteFirst(CheckPath, FromCreateDirectory(opts), name, env, w0);
  }

  /** The policy stops at the directory creation when it fails. */
  lemma PolicyStopsAtDirectory(name: string, opts: Options, env: Environment)
    requires env.validate(name).validForNewPackages
    requires ProjectPath(env.cwd, name) !in env.existing
    requires !env.mkdirSucceeds
    ensures Execute(Pipeline(opts), name, env, Start(env)) ==
      Execution([ValidateName, CheckPath, CreateDirectory], Start(env), Some(CreateDirectory), false)
  {
    var w0 := Start(env);
    ExecuteFirst(ValidateName, FromCheckPath(opts), name, env, w0);
    ExecuteFirst(CheckPath, FromCreateDirectory(opts), name, env, w0);
    ExecuteFirst(CreateDirectory, FromCopyTemplate(opts), name, env, w0);
  }

  /** A step that succeeds hands its world to the rest of the steps. */
  lemma ExecuteSucceeding(s: Step, rest: seq<Step>, name: string, env: Environment, w: World)
    requires Perform(s, name, env, w).ok
    ensures var e := Execute(rest, name, env, Perform(s, name, env, w).world);
      Execute([s] + rest, name, env, w) == Execution([s] + e.trace, e.world, e.stopped, e.warned)
  {
    ExecuteFirst(s, rest, name, env, w);
  }

  /** The policy up to the template copy, once the directory exists. */
  lemma PolicyUpToCopy(name: string, opts: Options, env: Environment)
    requires env.validate(name).validForNewPackages
    requires ProjectPath(env.cwd, name) !in env.existing
    requires env.mkdirSucceeds
    ensures var w0 := Start(env);
      var e := Execute(FromCopyTemplate(opts), name, env, w0.(disk := w0.disk + {ProjectPath(env.cwd, name)}));
      Execute(Pipeline(opts), name, env, w0) ==
        Execution([ValidateName, CheckPath, CreateDirectory] + e.trace, e.world, e.stopped, e.warned)
  {
    var w0 := Start(env);
    ExecuteSucceeding(ValidateName, FromCheckPath(opts), name, env, w0);
    ExecuteSucceeding(CheckPath, FromCreateDirectory(opts), name, env, w0);
    ExecuteSucceeding(CreateDirectory, FromCopyTemplate(opts), name, env, w0);
    var e := Execute(FromCopyTemplate(opts), name, env, w0.(disk := w0.disk + {ProjectPath(env.cwd, name)}));
    PrependThree(ValidateName, CheckPath, CreateDirectory, e.trace);
  }

  /** Prepending three elements one at a time prepends the three of them. */
  lemma PrependThree<T>(a: T, b: T, c: T, s: seq<T>)
    ensures [a] + ([b] + ([c] + s)) == [a, b, c] + s
  {
  }

  /** The policy when the template copy fails. */
  lemma PolicyCopyFails(name: string, opts: Options, env: Environment)
    requires env.validate(name).validForNewPackages
    requires ProjectPath(env.cwd, name) !in env.existing
    requires env.mkdirSucceeds && env.copy.CopyFailed?
    ensures Build(name, opts, env) == ByPolicy(name, opts, env)
  {
    var path := ProjectPath(env.cwd, name);
    var w0 := Start(env);
    var w2 := w0.(disk := w0.disk + {path});
    PolicyUpToCopy(name, opts, env);
    ExecuteFirst(CopyTemplate, FromUpdate(opts), name, env, w2);
    var failed := w2.(disk := w2.disk + Below(path, env.copy.partial * env.template));
    assert Execute(FromCopyTemplate(opts), name, env, w2) == Execution([CopyTemplate], failed, Some(CopyTemplate), false);
  }

  /** The policy when the template is copied in full: the state machine's run from the rewrite on. */
  lemma PolicyCopySucceeds(name: string, opts: Options, env: Environment)
    requires env.validate(name).validForNewPackages
    requires ProjectPath(env.cwd, name) !in env.existing
    requires env.mkdirSucceeds && env.copy.Copied?
    ensures var e := Execute(FromUpdate(opts), name, env, Copied(name, env));
      ByPolicy(name, opts, env) == Run([ValidateName, CheckPath, CreateDirectory, CopyTemplate] + e.trace,
        if e.stopped.Some? then Aborted(e.stopped.value)
        else Completed(if e.warned then ManualInstall(name, opts) else [], NextSteps(name, opts)),
        e.world)
  {
    var path := ProjectPath(env.cwd, name);
    var w0 := Start(env);
    var w2 := w0.(disk := w0.disk + {path});
    PolicyUpToCopy(name, opts, env);
    ExecuteSucceeding(CopyTemplate, FromUpdate(opts), name, env, w2);
    var e := Execute(FromUpdate(opts), name, env, World(w2.disk + Below(path, env.template), env.templateManifests));
    AppendFourth(ValidateName, CheckPath, CreateDirectory, CopyTemplate, e.trace);
  }

  /** Three elements followed by a fourth and a tail are the four followed by the tail. */
  lemma AppendFourth<T>(a: T, b: T, c: T, d: T, s: seq<T>)
    ensures [a, b, c] + ([d] + s) == [a, b, c, d] + s
  {
  }

  /** The state machine and the straight-line code agree once the template is copied. */
  lemma BuildAfterCopy(name: string, opts: Options, env: Environment)
    requires env.validate(name).validForNewPackages
    requires ProjectPath(env.cwd, name) !in env.existing
    requires env.mkdirSucceeds && env.copy.Copied?
    ensures Build(name, opts, env) == ByPolicy(name, opts, env)
  {
    assert Build(name, opts, env) == BuildCopied(name, opts, env, Copied(name, env));
    PolicyCopied(name, opts, env);
  }

  /** The abort policy over a fully copied template ends as the rest of the straight-line code does. */
  lemma PolicyCopied(name: string, opts: Options, env: Environment)
    requires env.validate(name).validForNewPackages
    requires ProjectPath(env.cwd, name) !in env.existing
    requires env.mkdirSucceeds && env.copy.Copied?
    ensures ByPolicy(name, opts, env) == BuildCopied(name, opts, env, Copied(name, env))
  {
    var w3 := Copied(name, env);
    PolicyCopySucceeds(name, opts, env);
    PolicyFromUpdate(name, opts, env, w3);
    var e := Execute(FromUpdate(opts), name, env, w3);
    PolicyTail(name, opts, env, w3, e);
  }

  /** The world right after a complete copy of the template into the new directory. */
  function Copied(name: string, env: Environment): World {
    var path := ProjectPath(env.cwd, name);
    World(env.existing + {path} + Below(path, env.template), env.templateManifests)
  }

  /** Turning the state machine's run from the rewrite on into the outcome of the whole run. */
  lemma PolicyTail(name: string, opts: Options, env: Environment, w: World, e: Execution)
    requires var rewrite := Manifest.UpdateProjectFiles(w.manifests, name);
      var updated := w.(manifests := rewrite.files);
      e == if rewrite.error.Some? then Execution([UpdateConfiguration], updated, Some(UpdateConfiguration), false)
        else if opts.skipInstall then Execution([UpdateConfiguration], updated, None, false)
        else Execution([UpdateConfiguration, InstallDependencies], updated, None, !env.installSucceeds)
    ensures BuildCopied(name, opts, env, w) ==
      Run([ValidateName, CheckPath, CreateDirectory, CopyTemplate] + e.trace,
        if e.stopped.Some? then Aborted(e.stopped.value)
        else Completed(if e.warned then ManualInstall(name, opts) else [], NextSteps(name, opts)),
        e.world)
  {
    var prefix: seq<Step> := [ValidateName, CheckPath, CreateDirectory, CopyTemplate];
    assert prefix + [UpdateConfiguration] == [ValidateName, CheckPath, CreateDirectory, CopyTemplate, UpdateConfiguration];
    assert prefix + [UpdateConfiguration, InstallDependencies]
        == [ValidateName, CheckPath, CreateDirectory, CopyTemplate, UpdateConfiguration] + [InstallDependencies];
  }

  // ---------------------------------------------------------------------------
  // Properties of a run
  // ---------------------------------------------------------------------------

  /** An invalid name exits with code 1 after validation alone, and the disk is untouched. */
  lemma InvalidNameAborts(arg: string, opts: Options, env: Environment)
    requires arg != "" && !env.validate(arg).validForNewPackages
    ensures var r := CreateProject(arg, opts, env);
      && r.trace == [ValidateName]
      && r.outcome == Aborted(ValidateName) && ExitCode(r.outcome) == 1
      && r.world.disk == env.existing
  {
  }

  /** A name taken by an existing path exits with code 1 before the directory step, and the disk is untouched. */
  lemma CollisionAborts(arg: string, opts: Options, env: Environment)
    requires ResolveName(arg, env).Some?
    requires env.validate(ResolveName(arg, env).value).validForNewPackages
    requires ProjectPath(env.cwd, ResolveName(arg, env).value) in env.existing
    ensures var r := CreateProject(arg, opts, env);
      && r.trace == [ValidateName, CheckPath]
      && r.outcome == Aborted(CheckPath) && ExitCode(r.outcome) == 1
      && r.world.disk == env.existing
  {
  }

  /**
   * The step an aborted run names is the one that failed: the abort policy
   * ran every step before it without stopping, and the step then failed in
   * the world those steps left.
   */
  lemma AbortedStepFailed(arg: string, opts: Options, env: Environment)
    requires CreateProject(arg, opts, env).outcome.Aborted?
    ensures var name := ResolveName(arg, env).value;
      var r := CreateProject(arg, opts, env);
      var before := Execute(Pipeline(opts)[..|r.trace| - 1], name, env, Start(env));
      && before.stopped.None?
      && !Perform(r.outcome.at, name, env, before.world).ok
  {
    var name := ResolveName(arg, env).value;
    BuildFollowsPolicy(name, opts, env);
    assert CreateProject(arg, opts, env) == ByPolicy(name, opts, env);
    PolicyAbortsAtFailure(name, opts, env);
  }

  /** The abort policy stops at the first fatal step that fails. */
  lemma PolicyAbortsAtFailure(name: string, opts: Options, env: Environment)
    requires ByPolicy(name, opts, env).outcome.Aborted?
    ensures var r := ByPolicy(name, opts, env);
      var before := Execute(Pipeline(opts)[..|r.trace| - 1], name, env, Start(env));
      && before.stopped.None?
      && !Perform(r.outcome.at, name, env, before.world).ok
  {
    var e := Execute(Pipeline(opts), name, env, Start(env));
    ExecuteStopsAtFailure(Pipeline(opts), name, env, Start(env));
    assert Pipeline(opts)[|e.trace| - 1] == e.trace[|e.trace| - 1];
  }

  /** A failed `fs.ensureDirSync` exits with code 1; nothing after it is attempted and the disk is untouched. */
  lemma DirectoryFailureAborts(arg: string, opts: Options, env: Environment)
    requires ResolveName(arg, env).Some?
    requires var name := ResolveName(arg, env).value;
      && env.validate(name).validForNewPackages
      && ProjectPath(env.cwd, name) !in env.existing
      && !env.mkdirSucceeds
    ensures var r := CreateProject(arg, opts, env);
      && r.trace == [ValidateName, CheckPath, CreateDirectory]
      && r.outcome == Aborted(CreateDirectory) && ExitCode(r.outcome) == 1
      && r.world.disk == env.existing
  {
  }

  /**
   * A failed template copy exits with code 1; nothing after it is attempted,
   * and the directory stays with what the copy wrote before failing.
   */
  lemma CopyFailureAborts(arg: string, opts: Options, env: Environment)
    requires ResolveName(arg, env).Some?
    requires var name := ResolveName(arg, env).value;
      && env.validate(name).validForNewPackages
      && ProjectPath(env.cwd, name) !in env.existing
      && env.mkdirSucceeds && env.copy.CopyFailed?
    ensures var path := ProjectPath(env.cwd, ResolveName(arg, env).value);
      var r := CreateProject(arg, opts, env);
      && r.trace == [ValidateName, CheckPath, CreateDirectory, CopyTemplate]
      && r.outcome == Aborted(CopyTemplate) && ExitCode(r.outcome) == 1
      && r.world.disk == env.existing + {path} + Below(path, env.copy.partial * env.template)
  {
  }

  /**
   * A failed manifest rewrite exits with code 1 and the install is not
   * attempted; the copied template stays, with whatever the rewrite wrote.
   */
  lemma RewriteFailureAborts(arg: string, opts: Options, env: Environment)
    requires ResolveName(arg, env).Some?
    requires var name := ResolveName(arg, env).value;
      && env.validate(name).validForNewPackages
      && ProjectPath(env.cwd, name) !in env.existing
      && env.mkdirSucceeds && env.copy.Copied?
      && Manifest.UpdateProjectFiles(env.templateManifests, name).error.Some?
    ensures var name := ResolveName(arg, env).value;
      var path := ProjectPath(env.cwd, name);
      var r := CreateProject(arg, opts, env);
      && r.trace == [ValidateName, CheckPath, CreateDirectory, CopyTemplate, UpdateConfiguration]
      && r.outcome == Aborted(UpdateConfiguration) && ExitCode(r.outcome) == 1
      && r.world.disk == env.existing + {path} + Below(path, env.template)
      && r.world.manifests == Manifest.UpdateProjectFiles(env.templateManifests, name).files
  {
  }

  /** A name that came from the prompt always passes the validation that follows it. */
  lemma PromptedNameIsValid(opts: Options, env: Environment)
    requires ResolveName("", env).Some?
    ensures CreateProject("", opts, env).outcome != Aborted(ValidateName)
    ensures CreateProject("", opts, env).trace != [ValidateName]
  {
  }

  /** A run completes exactly when a name is known and every fatal step succeeds. */
  lemma CompletesIff(arg: string, opts: Options, env: Environment)
    ensures CreateProject(arg, opts, env).outcome.Completed? <==>
      && ResolveName(arg, env).Some?
      && var name := ResolveName(arg, env).value;
      && env.validate(name).validForNewPackages
      && ProjectPath(env.cwd, name) !in env.existing
      && env.mkdirSucceeds
      && env.copy.Copied?
      && Manifest.UpdateProjectFiles(env.templateManifests, name).error.None?
  {
  }

  /**
   * A failed install does not abort: the run still completes with exit code
   * 0, and tells the user to `cd` into the project and run the install command.
   */
  lemma InstallFailureIsAWarning(arg: string, opts: Options, env: Environment)
    requires ResolveName(arg, env).Some?
    requires var name := ResolveName(arg, env).value;
      && env.validate(name).validForNewPackages
      && ProjectPath(env.cwd, name) !in env.existing
      && env.mkdirSucceeds && env.copy.Copied?
      && Manifest.UpdateProjectFiles(env.templateManifests, name).error.None?
    requires !opts.skipInstall && !env.installSucceeds
    ensures var name := ResolveName(arg, env).value;
      var r := CreateProject(arg, opts, env);
      && r.trace[|r.trace| - 1] == InstallDependencies
      && r.outcome == Completed(["cd " + name, Commands.InstallCommand(Manager(opts))], NextSteps(name, opts))
      && ExitCode(r.outcome) == 0
  {
  }

  /**
   * The manual-install hint is printed exactly when the install was
   * attempted and failed: a skipped or successful install prints none.
   */
  lemma InstallHintIffFailure(arg: string, opts: Options, env: Environment)
    requires CreateProject(arg, opts, env).outcome.Completed?
    ensures var name := ResolveName(arg, env).value;
      var hint := CreateProject(arg, opts, env).outcome.manualInstall;
      && (hint != [] <==> !opts.skipInstall && !env.installSucceeds)
      && (hint != [] ==> hint == ["cd " + name, Commands.InstallCommand(Manager(opts))])
  {
  }

  /** The next steps: `cd`, then the install command only when it was skipped, then the dev command. */
  lemma NextStepsOrder(arg: string, opts: Options, env: Environment)
    requires CreateProject(arg, opts, env).outcome.Completed?
    ensures var name := ResolveName(arg, env).value;
      var steps := CreateProject(arg, opts, env).outcome.nextSteps;
      var m := Manager(opts);
      steps == if opts.skipInstall
        then ["cd " + name, Commands.InstallCommand(m), Commands.DevCommand(m)]
        else ["cd " + name, Commands.DevCommand(m)]
  {
  }

  /**
   * A completed run leaves the existing paths, the project directory with the
   * whole template below it, and the rewritten manifests. The install's own
   * files are not part of the modelled disk.
   */
  lemma CompletedProject(arg: string, opts: Options, env: Environment)
    requires CreateProject(arg, opts, env).outcome.Completed?
    ensures var name := ResolveName(arg, env).value;
      var path := ProjectPath(env.cwd, name);
      var r := CreateProject(arg, opts, env);
      && r.world.disk == env.existing + {path} + Below(path, env.template)
      && r.world.manifests == Manifest.UpdateProjectFiles(env.templateManifests, name).files
  {
  }

  /** With npm and `--skip-install`, the next steps are `cd`, `npm install` and `npm run dev`. */
  lemma SkippedNpmSteps(name: string)
    ensures NextSteps(name, Options("npm", true)) == ["cd " + name, "npm install", "npm run dev"]
  {
    assert Manager(Options("npm", true)) == "npm";
    Commands.NpmCommands();
  }

  /**
   * A run for "demo-app" with `--skip-install` and the default manager, over
   * a template whose package.json is an object and whose app.json has an
   * `expo` object, exits 0 with the template's manifests rewritten for
   * "demo-app" (see `Manifest.DemoAppManifests`) and lists `npm install`
   * among the next steps.
   */
  lemma DemoAppScenario(env: Environment)
    requires env.validate("demo-app").validForNewPackages
    requires ProjectPath(env.cwd, "demo-app") !in env.existing
    requires env.mkdirSucceeds && env.copy.Copied?
    requires Manifest.ExpoTemplate(env.templateManifests)
    ensures var r := CreateProject("demo-app", Options("npm", true), env);
      && r.outcome.Completed? && ExitCode(r.outcome) == 0
      && r.outcome.nextSteps == ["cd " + "demo-app", "npm install", "npm run dev"]
      && r.world.manifests == Manifest.UpdateProjectFiles(env.templateManifests, "demo-app").files
  {
    var name := "demo-app";
    var opts := Options("npm", true);
    Manifest.DemoAppManifests(env.templateManifests);
    var path := ProjectPath(env.cwd, name);
    var rewrite := Manifest.UpdateProjectFiles(env.templateManifests, name);
    var w := World(env.existing + {path} + Below(path, env.template), rewrite.files);
    assert CreateProject(name, opts, env) == Run(Pipeline(opts), Completed([], NextSteps(name, opts)), w);
    SkippedNpmSteps(name);
  }
}

=== FILE: prompt.dfy ===
/**
 * Name collection: the `validate` callback the interactive prompt runs on
 * each answer, and the prompt itself, which asks again until an answer
 * passes. The package-name rules belong to the external
 * validate-npm-package-name library and are a parameter here.
 */
module Prompt {
  import opened Wrappers

  /** What validate-npm-package-name reports about a candidate name. */
  datatype Validation = Validation(validForNewPackages: bool, errors: seq<string>)

  /** ECMAScript WhiteSpace and LineTerminator code points: what `trim` strips. */
  predicate IsWhitespace(c: char) {
    || c == '\t' || c == '\n' || c == '\U{B}' || c == '\U{C}' || c == '\r' || c == ' '
    || c == '\U{A0}' || c == '\U{1680}' || '\U{2000}' <= c <= '\U{200A}'
    || c == '\U{2028}' || c == '\U{2029}' || c == '\U{202F}' || c == '\U{205F}'
    || c == '\U{3000}' || c == '\U{FEFF}'
  }

  predicate IsBlank(s: string) {
    forall i :: 0 <= i < |s| ==> IsWhitespace(s[i])
  }

  /** Drops leading whitespace. */
  function TrimStart(s: string): (r: string)
    ensures |r| <= |s| && r == s[|s| - |r|..]
    ensures IsBlank(s[..|s| - |r|])
    ensures r == [] || !IsWhitespace(r[0])
  {
    if s == [] || !IsWhitespace(s[0]) then s
    else
      var r := TrimStart(s[1..]);
      assert s[1..][..|s| - 1 - |r|] == s[1..|s| - |r|];
      r
  }

  /** Drops trailing whitespace. */
  function TrimEnd(s: string): (r: string)
    ensures |r| <= |s| && r == s[..|r|]
    ensures IsBlank(s[|r|..])
    ensures r == [] || !IsWhitespace(r[|r| - 1])
  {
    if s == [] || !IsWhitespace(s[|s| - 1]) then s
    else
      var r := TrimEnd(s[..|s| - 1]);
      assert s[..|s| - 1][|r|..] == s[|r|..|s| - 1];
      r
  }

  /** `String.prototype.trim`. */
  function Trim(s: string): string {
    TrimEnd(TrimStart(s))
  }

  /** `!input.trim()` holds exactly for the empty and whitespace-only strings. */
  lemma TrimEmptyIffBlank(s: string)
    ensures Trim(s) == "" <==> IsBlank(s)
  {
    var t := TrimStart(s);
    if Trim(s) == "" {
      assert IsBlank(t[0..]);
      forall i | 0 <= i < |s|
        ensures IsWhitespace(s[i])
      {
        if i < |s| - |t| {
          assert s[i] == s[..|s| - |t|][i];
        } else {
          assert s[i] == t[i - (|s| - |t|)];
        }
      }
    } else {
      var i := |s| - |t|;
      assert t != [] && s[i] == t[0];
    }
  }

  /** The message shown for a blank answer. */
  const NameRequired := "\U{274C} Project name is required"

  /** The message shown for a name the package-name rules reject: their first error, or a generic one. */
  function RuleMessage(v: Validation): string {
    "\U{274C} " + if |v.errors| > 0 && v.errors[0] != "" then v.errors[0] else "Invalid project name"
  }

  datatype Verdict = Accept | Reject(message: string)

  /** The answers the prompt lets through: not blank, and a valid new package name. */
  predicate Passes(input: string, validate: string -> Validation) {
    !IsBlank(input) && validate(input).validForNewPackages
  }

  /** The prompt's `validate` callback. */
  function CheckAnswer(input: string, validate: string -> Validation): (r: Verdict)
    ensures r.Accept? <==> Passes(input, validate)
    ensures IsBlank(input) ==> r == Reject(NameRequired)
    ensures !IsBlank(input) && !validate(input).validForNewPackages ==> r == Reject(RuleMessage(validate(input)))
  {
    TrimEmptyIffBlank(input);
    if Trim(input) == "" then Reject(NameRequired)
    else if !validate(input).validForNewPackages then Reject(RuleMessage(validate(input)))
    else Accept
  }

  /**
   * The interactive prompt over the answers the user types, in order: it
   * asks again while `CheckAnswer` rejects, so it yields the position of the
   * first answer that passes, or None while no answer has passed (the
   * process keeps waiting for input).
   */
  function Ask(answers: seq<string>, validate: string -> Validation): (r: Option<nat>)
    ensures r.Some? ==> r.value < |answers| && Passes(answers[r.value], validate)
    ensures r.Some? ==> forall j :: 0 <= j < r.value ==> !Passes(answers[j], validate)
    ensures r.None? <==> forall j :: 0 <= j < |answers| ==> !Passes(answers[j], validate)
  {
    AskFrom(answers, validate, 0)
  }

  /** The prompt after the answers before `from` were rejected. */
  function AskFrom(answers: seq<string>, validate: string -> Validation, from: nat): (r: Option<nat>)
    requires from <= |answers|
    ensures r.Some? ==> from <= r.value < |answers| && Passes(answers[r.value], validate)
    ensures r.Some? ==> forall j :: from <= j < r.value ==> !Passes(answers[j], validate)
    ensures r.None? <==> forall j :: from <= j < |answers| ==> !Passes(answers[j], validate)
    decreases |answers| - from
  {
    if from == |answers| then None
    else if Passes(answers[from], validate) then Some(from)
    else AskFrom(answers, validate, from + 1)
  }
}

=== FILE: slug.dfy ===
/**
 * The slug the scaffolder derives from a project name for the `expo.slug`
 * and `expo.scheme` fields of app.json: the name lower-cased, with every
 * character outside the class [a-z0-9-] replaced by '-'.
 *
 * Lower-casing is modelled for the characters whose lower-case form is an
 * allowed character: the ASCII letters and the Kelvin sign (U+212A, which
 * lower-cases to 'k'). `LowerChar` keeps every other character. Those in
 * [a-z0-9-] are their own lower-case form; for every other character that
 * `toLowerCase` changes, the one-character lower-case form is outside the
 * allowed class too, so the replacement turns it into '-' either way. Two kinds of
 * character are not one UTF-16 code unit before or after lower-casing, and
 * the model does not follow the source on them: U+0130, whose lower-case form
 * is two characters, and characters beyond U+FFFF, which the regex (no `u`
 * flag) sees as two code units.
 */
module Slug {

  predicate IsUpper(c: char) {
    'A' <= c <= 'Z'
  }

  const KelvinSign: char := '\U{212A}'

  /** `toLowerCase` of one character, as far as the slug can tell it apart. */
  function LowerChar(c: char): (r: char)
    ensures !IsUpper(r)
    ensures IsUpper(c) ==> 'a' <= r <= 'z' && r as int - c as int == 'a' as int - 'A' as int
    ensures c == KelvinSign ==> r == 'k'
    ensures !IsUpper(c) && c != KelvinSign ==> r == c
  {
    if IsUpper(c) then (c as int + ('a' as int - 'A' as int)) as char
    else if c == KelvinSign then 'k'
    else c
  }

  /** `String.prototype.toLowerCase`, one character at a time. */
  function Lower(s: string): (r: string)
    ensures |r| == |s|
    ensures forall i :: 0 <= i < |s| ==> r[i] == LowerChar(s[i])
  {
    if s == [] then [] else [LowerChar(s[0])] + Lower(s[1..])
  }

  /** The character class `[a-z0-9-]`. */
  predicate Allowed(c: char) {
    'a' <= c <= 'z' || '0' <= c <= '9' || c == '-'
  }

  /** A string made only of allowed characters. */
  predicate IsSlug(s: string) {
    forall i :: 0 <= i < |s| ==> Allowed(s[i])
  }

  /** `s.replace(/[^a-z0-9-]/g, "-")`: the global regex replaces every disallowed character. */
  function ReplaceDisallowed(s: string): (r: string)
    ensures |r| == |s|
    ensures forall i :: 0 <= i < |s| && Allowed(s[i]) ==> r[i] == s[i]
    ensures forall i :: 0 <= i < |s| && !Allowed(s[i]) ==> r[i] == '-'
  {
    if s == [] then []
    else [if Allowed(s[0]) then s[0] else '-'] + ReplaceDisallowed(s[1..])
  }

  /** The slug of a project name. */
  function Slugify(name: string): (r: string)
    ensures |r| == |name|
    ensures IsSlug(r)
    ensures forall i :: 0 <= i < |name| && Allowed(LowerChar(name[i])) ==> r[i] == LowerChar(name[i])
    ensures forall i :: 0 <= i < |name| && !Allowed(LowerChar(name[i])) ==> r[i] == '-'
  {
    ReplaceDisallowed(Lower(name))
  }

  /** A position already holding an allowed character keeps it. */
  lemma SlugKeepsAllowed(name: string, i: int)
    requires 0 <= i < |name| && Allowed(name[i])
    ensures Slugify(name)[i] == name[i]
  {
    assert LowerChar(name[i]) == name[i];
  }

  /** A name is its own slug exactly when it consists of allowed characters. */
  lemma SlugFixpoint(name: string)
    ensures Slugify(name) == name <==> IsSlug(name)
  {
    if IsSlug(name) {
      forall i | 0 <= i < |name|
        ensures Slugify(name)[i] == name[i]
      {
        SlugKeepsAllowed(name, i);
      }
    }
  }

  /** Deriving the slug twice gives the slug. */
  lemma SlugIdempotent(name: string)
    ensures Slugify(Slugify(name)) == Slugify(name)
  {
    SlugFixpoint(Slugify(name));
  }

  /** Upper and lower case spellings of a name share one slug. */
  lemma SlugIgnoresCase(name: string)
    ensures Slugify(Lower(name)) == Slugify(name)
  {
    var a, b := Slugify(Lower(name)), Slugify(name);
    forall i | 0 <= i < |name|
      ensures a[i] == b[i]
    {
      assert LowerChar(LowerChar(name[i])) == LowerChar(name[i]);
    }
  }

  /** The slug is determined character by character. */
  lemma SlugByCharacter(name: string, expected: string)
    requires |expected| == |name|
    requires forall i :: 0 <= i < |name| ==>
      expected[i] == if Allowed(LowerChar(name[i])) then LowerChar(name[i]) else '-'
    ensures Slugify(name) == expected
  {
  }

  /** Worked example: a space becomes '-'. */
  lemma SlugOfSpacedName()
    ensures Slugify("My App") == "my-app"
  {
    SlugByCharacter("My App", "my-app");
  }

  /** Worked example: trailing punctuation becomes '-' and is not collapsed. */
  lemma SlugOfPunctuatedName()
    ensures Slugify("My App!") == "my-app-"
  {
    SlugByCharacter("My App!", "my-app-");
  }

  /** Worked example: an underscore becomes '-', digits are kept. */
  lemma SlugOfUnderscoredName()
    ensures Slugify("Foo_Bar123") == "foo-bar123"
  {
    SlugByCharacter("Foo_Bar123", "foo-bar123");
  }

  /** Worked example: an accented letter lower-cases to a character outside the class and becomes '-'. */
  lemma SlugOfAccentedName()
    ensures Slugify("Caf\U{E9}") == "caf-"
  {
    SlugByCharacter("Caf\U{E9}", "caf-");
  }

  /** Worked example: a name already made of allowed characters is its own slug. */
  lemma SlugOfSlugName()
    ensures Slugify("demo-app") == "demo-app"
  {
    SlugByCharacter("demo-app", "demo-app");
  }

  /** Worked example: the Kelvin sign lower-cases to 'k' and is kept. */
  lemma SlugOfKelvinSign()
    ensures Slugify("\U{212A}elvin") == "kelvin"
  {
    SlugByCharacter("\U{212A}elvin", "kelvin");
  }
}

=== FILE: wrappers.dfy ===
/** Optional values and results, shared by the other modules. */
module Wrappers {

  /** A value that may be missing. */
  datatype Option<+T> = None | Some(value: T)

  /** Either a computed value or the error that stopped the computation. */
  datatype Result<+T, +E> = Success(value: T) | Failure(error: E)
}
